=== FILE: README.md ===
# PyVmMonitor launcher for VS Code, modelled in Dafny

The extension adds one command, `vscode-pyvmmonitor.profile`. It shows a menu
with three profiling modes. It then runs the PyVmMonitor public API entry point
with `python`, in a new terminal, against the file in the active editor. To find
PyVmMonitor it reads PyVmMonitor's INI file.

The model treats one invocation as a pure function. Its inputs are the host
facts: the platform, `LOCALAPPDATA`, the home directory, an existence predicate,
the parsed INI, Node's path functions, whether the Windows shell is PowerShell,
the active document and the workspace folder lookup. Its output is the sequence
of observable events: `Log`, `Warning`, `CreateTerminal`, `Send` and `Show`.

- `host.dfy` (`Host`): the input record `Env` and the `Event` type.
- `text.dfy` (`Text`): the string operations.
  - `indexOf` for one character.
  - The quoting rule.
  - `replace(/\\/g, '/')`.
  - `substring(1)`.
- `trace.dfy` (`Trace`): a trace seen from each host surface. These are the
  texts sent to terminals, the warning messages, the console lines and the
  number of `show` calls.
- `modes.dfy` (`Modes`): the three menu labels and their flags.
- `resolver.dfy` (`Resolver`): `getPyVmMonitorLocation`. It covers the INI path
  per platform, the three failure branches and their reports.
- `launcher.dfy` (`Launcher`): `execInTerminal` and `startPyVmMonitor`. It
  covers command building, the Windows rewrite, the PowerShell prefix and the
  `cd` rule.
- `launch_properties.dfy` (`LaunchProperties`): what an invocation as a whole
  does and does not do.
- `posix_example.dfy` (`PosixExample`): a worked example on POSIX paths. It
  uses a simplified POSIX `join`/`dirname`.

Points of the code's behaviour that the model keeps as written:

- A path is quoted only when `indexOf(' ') > 0`. `indexOf` finds the first
  space, so a path that starts with a space is never quoted, even if it has
  more spaces later.
- On win32 with `LOCALAPPDATA` unset, the message "Unable to get LOCALAPPDATA
  variable." becomes the INI path. That string is checked for existence and,
  when missing, reported as the location of the INI. An empty `LOCALAPPDATA`
  is falsy in JavaScript, so it behaves the same as an unset one.
- An invocation can send two texts: a `cd` and then the launch text. The `cd`
  is sent before the tool is resolved, so a failed resolution can leave a `cd`
  sent with nothing launched.
- A `General` section without the `pyvmmonitor_ui_executable` key is not a
  quiet failure. `fs.existsSync(undefined)` is false, so the code reports the
  location as "undefined" in the "not valid" warning.
- The quoted file path is what goes to `path.dirname` and to the workspace
  lookup. Its dirname therefore keeps the opening quote (`"/home/u`). For a
  quoted path, only the comparison without the first character can equal the
  workspace root. When a `cd` is sent for a quoted path, its text starts `cd ""`
  (`PosixExample.ExampleQuotedDirname`).

## Model

| member | source | states |
|---|---|---|
| Text.IndexOf | src/extension.ts:62 | `indexOf` returns -1 exactly when the character is absent; otherwise the character is at the returned position and not before it |
| Text.NeedsQuotes | src/extension.ts:62 | the quoting test holds iff the path contains a space and its first character is not a space |
| Text.Quote | src/extension.ts:62-64 | a path that passes the test becomes itself between two double quotes, two characters longer; any other path is returned unchanged |
| Text.ToForwardSlashes | src/extension.ts:90 | the Windows rewrite keeps the length, turns each backslash into a slash, keeps every other character in place, and leaves no backslash |
| Text.ForwardSlashesIdempotent | src/extension.ts:90 | rewriting twice gives the same text as rewriting once |
| Text.ForwardSlashesIdentity | src/extension.ts:90 | a text without backslashes is left unchanged |
| Text.ForwardSlashesConcat | src/extension.ts:90 | rewriting a concatenation rewrites each part separately |
| Text.DropFirst | src/extension.ts:73 | `substring(1)` is the text after the first character, and empty for the empty text |
| Modes.Flag | src/extension.ts:116-128 | each mode's flag is empty or one token with a leading space, and has no backslash |
| Modes.ParseLabel | src/extension.ts:116-128 | a picked label selects the mode with that label; a label matching no mode selects nothing |
| Modes.ParseLabelInvertsLabel | src/extension.ts:132-134 | every label offered in the menu selects its own mode |
| Modes.MenuTable | src/extension.ts:116-134 | yappi maps to ` --profile=yappi`, profile/cProfile to ` --profile=lsprof`, live sampling view to no flag |
| Resolver.IniLocation | src/extension.ts:13-29 | on win32 without LOCALAPPDATA the INI path is the message itself; the per-platform paths are stated in `Resolver.IniLocationByPlatform` |
| Resolver.ConfiguredExecutable | src/extension.ts:31-37 | a configured executable exists iff the INI path exists, parses, has a `General` section and that section has the key; it is the key's value |
| Resolver.IniLocationByPlatform | src/extension.ts:13-29 | the INI path on win32 (with and without LOCALAPPDATA), on darwin and on every other platform |
| Resolver.Report | src/extension.ts:40-46 | a failure report is two events: the message is logged to the console first, then shown once as a warning; nothing is sent or shown in a terminal |
| Resolver.Resolve | src/extension.ts:12-49 | a non-empty result is the configured executable and exists on disk, with nothing reported; a report is one log line plus one warning, and comes only with the empty result |
| Resolver.ResolveFound | src/extension.ts:31-39 | resolution yields a location iff the INI exists, parses with `General`, and has a non-empty executable path that exists; that location is the configured value unchanged |
| Resolver.ResolveNotInstalled | src/extension.ts:43-47 | the report is exactly "not installed", naming the INI path, iff the INI path does not exist |
| Resolver.ResolveInvalid | src/extension.ts:36-42 | the report is exactly "not valid" iff the INI exists and parses with `General` but the key is missing or its path does not exist; the message then names the configured value (`undefined` when the key is missing) and the INI path |
| Resolver.ResolveQuiet | src/extension.ts:32-35 | an INI that parses to nothing, or has no `General` section, gives the empty result and no report |
| Resolver.WindowsWithoutLocalAppData | src/extension.ts:13-19 | on win32 without LOCALAPPDATA the message itself is the INI path; if nothing exists there, the "not installed" warning names that message |
| Resolver.ResolveWarnsAtMostOnce | src/extension.ts:31-48 | resolution shows at most one warning, and reports nothing when it finds a location |
| Launcher.EntryPoint | src/extension.ts:82-86 | the entry point is `public_api/pyvmmonitor/__init__.py` joined to the tool's directory and made absolute; that path is wrapped in double quotes when it contains a space and does not start with one, and is otherwise used as is |
| Launcher.BuildCommand | src/extension.ts:88 | the command is `python `, the entry point, the flag with no separator, one space and the file path, in that order and nothing else |
| Launcher.LaunchText | src/extension.ts:89-98 | off win32 the command is sent unchanged; on win32 the sent text is the command with every backslash turned into `/` and every other character kept in place, behind `& ` exactly when the shell is PowerShell |
| Launcher.CdDirectory | src/extension.ts:71-75 | a `cd` target is the quoted file's dirname, found in a workspace, differing from its root as is and without its first character; `LaunchProperties.CdRule` gives the converse |
| Launcher.ExecInTerminal | src/extension.ts:57-100 | a terminal is created first; without a tool location nothing is shown; with one the trace ends with the launch text and `Show`. The sent texts are stated by `LaunchProperties.ExecLaunches`, `LaunchProperties.ExecAborts` and `LaunchProperties.CdComesFirst` |
| Launcher.StartPyVmMonitor | src/extension.ts:102-130 | a cancelled pick gives no events; anything sent or shown implies a pick, an editor, a saved document and a known label. The stops and the outcome are stated by `LaunchProperties.EarlyStops` and `LaunchProperties.ProfileOutcome` |
| LaunchProperties.EarlyStops | src/extension.ts:103-128 | a cancelled pick does nothing; then no editor or an untitled document each give exactly their one warning, in that order; then an unknown label does nothing; none of these sends or shows anything |
| LaunchProperties.TerminalCreatedIff | src/extension.ts:102-128 | a terminal is created iff the pick passes every early stop, and it is the first event |
| LaunchProperties.CdRule | src/extension.ts:71-75 | a `cd` is due iff a workspace folder is found and the quoted file's dirname differs from its root both as is and without its first character |
| LaunchProperties.CdComesFirst | src/extension.ts:67-76 | a due `cd` is sent right after the terminal is created, before resolution reports anything |
| LaunchProperties.ExecLaunches | src/extension.ts:76-99 | after a successful resolution the texts sent are the optional `cd` and then exactly one launch text, followed by one `Show`, with no warning and no console line |
| LaunchProperties.ExecAborts | src/extension.ts:70-79 | after a failed resolution only the optional `cd` has been sent, nothing is shown, and the only warning and the only console line are the resolver's report, if any |
| LaunchProperties.ProfileOutcome | src/extension.ts:102-130 | the terminal is shown (once) iff the pick passes every early stop and the tool is found; then the last text sent is the launch text for the picked flag and the document; at most two texts are ever sent |
| LaunchProperties.LaunchTextForMode | src/extension.ts:82-98 | the text sent for a resolved tool, a mode and a document is `python `, the entry point beside the tool, the mode's flag, one space and the quoted document path; on win32 the entry point and the path are rewritten to slashes, behind `& ` for PowerShell |
| LaunchProperties.ForwardSlashesCommand | src/extension.ts:88-90 | rewriting a built command rewrites only its entry point and its file path |
| LaunchProperties.WindowsLaunchText | src/extension.ts:88-95 | on win32 the sent text is `& ` (PowerShell only), `python `, the rewritten entry point, the flag, a space and the rewritten file path |
| LaunchProperties.WindowsRewriteStable | src/extension.ts:89-95 | the text sent on win32 is unchanged by a further rewrite |
| PosixExample.ExampleEntryPoint | src/extension.ts:82-86 | for the tool at `/opt/Brainwy/pyvmmonitor` the entry point is `/opt/Brainwy/public_api/pyvmmonitor/__init__.py`, unquoted |
| PosixExample.ExampleCommand | src/extension.ts:82-97 | in yappi mode for `/home/u/my file.py`, the text sent off win32 is `python /opt/Brainwy/public_api/pyvmmonitor/__init__.py --profile=yappi "/home/u/my file.py"` |
| PosixExample.ExampleQuotedDirname | src/extension.ts:71-74 | the dirname of the quoted document keeps the opening quote, it matches `/home/u` only without its first character, and its `cd` text starts `cd ""` |

## Left out

- The VS Code API is not modelled.
  - `registerCommand` and `showQuickPick` are left out. The pick result is an
    input, `None` when the user cancels.
  - `getConfiguration` and the `/powershell/` test are reduced to the boolean
    `isPowerShell`.
  - `createTerminal`, `sendText`, `show`, `showWarningMessage` and
    `console.log` become events.
  - `activeTextEditor` and `getWorkspaceFolder` become inputs.
- Terminal lifecycle is not modelled. The `terminal` variable is declared
  fresh on each call, so every invocation that passes the early stops creates
  a new terminal. There is no reuse to model. `sendText` appends a newline;
  the model keeps only the text.
- `fs.existsSync`, `fs.readFileSync` and the `ini` parser are abstract.
  - Existence is a predicate on strings.
  - Reading plus parsing is a function from the path to an optional map of
    sections.
  - A read that throws is not modelled.
  - The `ini` package's typed values (`true`, `false`) are not modelled.
  - A top-level `General` key that is not a section is not modelled.
- `path.join`, `path.dirname`, `path.resolve` and `os.homedir` are left
  abstract. They are fields of `Env`. `PosixExample` replaces them with a
  simplified stand-in for its worked example only. The stand-in does no
  normalisation and no handling of trailing slashes.
- Platforms are not all named. Every `process.platform` other than `win32` and
  `darwin` takes the Linux branch, and the model collapses them into one value.
- The closure variable `iniLocation` is not modelled as state. It is shared
  across calls, but each call overwrites it before reading it.
- Text.DropFirst: it drops one Unicode code point, and JavaScript's
  `substring(1)` drops one UTF-16 code unit; the same gap shifts the positions
  `Text.IndexOf` returns. The two differ only when the text starts with a
  character outside the Basic Multilingual Plane. The text that is cut is the
  dirname of an absolute path, which starts with `/`, a drive letter, a
  backslash or the added double quote, and all of these are single code
  units. `IndexOf` is only compared with 0, and that comparison does not
  depend on the encoding.
- The unused command argument `fileUri`, the unused `languageId`, and
  `deactivate` are left out.

=== FILE: host.dfy ===
/**
 The host facts the profiling launcher depends on, and the events it produces.

 The extension talks to the editor host (menus, notifications, terminals), to
 the file system, to an INI parser and to Node's `path` module.  None of these
 is modelled: every fact the launcher reads is a field of `Env`, and every
 observable thing it does is an `Event`.
 */
module Host {

  datatype Option<+T> = None | Some(value: T)

  /** `process.platform`, as far as the launcher tells platforms apart. */
  datatype Platform = Win32 | Darwin | OtherPlatform

  /** An INI file as the parser returns it: section name to key/value pairs. */
  type Ini = map<string, map<string, string>>

  /** The document of the active text editor. */
  datatype Document = Document(fileName: string, isUntitled: bool)

  /** Node's `path.join`, `path.dirname` and `path.resolve`, left abstract. */
  datatype PathOps = PathOps(
    join: seq<string> -> string,
    dirname: string -> string,
    resolve: string -> string)

  /** Everything the launcher reads from its surroundings during one invocation. */
  datatype Env = Env(
    platform: Platform,
    /** `process.env["LOCALAPPDATA"]`; `None` when the variable is unset. */
    localAppData: Option<string>,
    /** `os.homedir()`. */
    homedir: string,
    /** `fs.existsSync` on a string path. */
    pathExists: string -> bool,
    /** Reading the file at a path and parsing it as INI; `None` when the parse is falsy. */
    readIni: string -> Option<Ini>,
    paths: PathOps,
    /** Whether the `terminal.integrated.shell.windows` setting mentions "powershell". */
    isPowerShell: bool,
    /** `vscode.window.activeTextEditor`, reduced to its document. */
    editor: Option<Document>,
    /** The file-system path of the workspace folder holding a file, if any. */
    workspaceOf: string -> Option<string>)

  /** What an invocation does that a user or the host can observe, in order. */
  datatype Event =
    | Log(message: string)            // console.log
    | Warning(message: string)        // vscode.window.showWarningMessage
    | CreateTerminal(name: string)    // vscode.window.createTerminal
    | Send(text: string)              // terminal.sendText
    | Show                            // terminal.show
}

=== FILE: launch_properties.dfy ===
/** What one invocation of the profiling command can and cannot do. */
module LaunchProperties {
  import opened Host
  import opened Text
  import opened Trace
  import opened Modes
  import opened Resolver
  import opened Launcher

  /** The invocation gets as far as `execInTerminal`. */
  predicate ReachesTerminal(env: Env, chosen: Option<string>) {
    && !Cancelled(chosen)
    && env.editor.Some?
    && !env.editor.value.isUntitled
    && ParseLabel(chosen.value).Some?
  }

  /**
   The early stops, checked in order: a cancelled pick does nothing; then no
   editor, then an untitled document, each give exactly their warning; then an
   unknown label does nothing.  None of them touches a terminal.
   */
  lemma EarlyStops(env: Env, chosen: Option<string>)
    ensures Cancelled(chosen) ==> StartPyVmMonitor(env, chosen) == []
    ensures !Cancelled(chosen) && env.editor.None? ==>
      StartPyVmMonitor(env, chosen) == [Warning(NoEditorMessage)]
    ensures !Cancelled(chosen) && env.editor.Some? && env.editor.value.isUntitled ==>
      StartPyVmMonitor(env, chosen) == [Warning(UnsavedMessage)]
    ensures (!Cancelled(chosen) && env.editor.Some? && !env.editor.value.isUntitled
             && ParseLabel(chosen.value).None?) ==> StartPyVmMonitor(env, chosen) == []
    ensures !ReachesTerminal(env, chosen) ==>
      Sent(StartPyVmMonitor(env, chosen)) == [] && Shows(StartPyVmMonitor(env, chosen)) == 0
  {
  }

  /** A terminal is created exactly when the invocation passes every early stop. */
  lemma TerminalCreatedIff(env: Env, chosen: Option<string>)
    ensures CreateTerminal(TerminalName) in StartPyVmMonitor(env, chosen) <==> ReachesTerminal(env, chosen)
    ensures ReachesTerminal(env, chosen) ==> StartPyVmMonitor(env, chosen)[0] == CreateTerminal(TerminalName)
  {
  }

  /** Whether `cd` is sent depends only on the workspace root and the quoted file's dirname. */
  lemma CdRule(env: Env, quotedFile: string)
    ensures CdDirectory(env, quotedFile).Some? <==>
      var dir := env.paths.dirname(quotedFile);
      && env.workspaceOf(quotedFile).Some?
      && dir != env.workspaceOf(quotedFile).value
      && DropFirst(dir) != env.workspaceOf(quotedFile).value
    ensures CdDirectory(env, quotedFile).Some? ==> CdDirectory(env, quotedFile).value == env.paths.dirname(quotedFile)
  {
  }

  function CdSent(env: Env, filePath: string): seq<string> {
    match CdDirectory(env, Quote(filePath))
    case None => []
    case Some(dir) => [CdText(dir)]
  }

  /** Creating the terminal and the optional `cd` send at most the `cd`, and show, warn and log nothing. */
  lemma PrologueProjections(env: Env, filePath: string)
    ensures var prologue := [CreateTerminal(TerminalName)] + CdEvents(env, Quote(filePath));
      Sent(prologue) == CdSent(env, filePath) && Warned(prologue) == [] && Shows(prologue) == 0
      && Logged(prologue) == []
  {
    ProjectionsOfOne(CreateTerminal(TerminalName));
    match CdDirectory(env, Quote(filePath))
    case None =>
      assert [CreateTerminal(TerminalName)] + [] == [CreateTerminal(TerminalName)];
      PrologueLogsNothing([]);
    case Some(dir) =>
      ProjectionsOfOne(Send(CdText(dir)));
      ProjectionsConcat([CreateTerminal(TerminalName)], [Send(CdText(dir))]);
      PrologueLogsNothing([Send(CdText(dir))]);
  }

  lemma PrologueLogsNothing(cd: seq<Event>)
    requires cd == [] || (|cd| == 1 && cd[0].Send?)
    ensures Logged([CreateTerminal(TerminalName)] + cd) == []
  {
    LoggedOfOne(CreateTerminal(TerminalName));
    if cd != [] {
      assert cd == [cd[0]];
      LoggedOfOne(cd[0]);
    }
    LoggedConcat([CreateTerminal(TerminalName)], cd);
  }

  lemma LaunchTail(prologue: seq<Event>, text: string)
    ensures var t := prologue + [Send(text), Show];
      && Sent(t) == Sent(prologue) + [text]
      && Warned(t) == Warned(prologue)
      && Shows(t) == Shows(prologue) + 1
      && Logged(t) == Logged(prologue)
      && t[|t| - 1] == Show
      && t[|t| - 2] == Send(text)
  {
    ProjectionsOfOne(Send(text));
    ProjectionsOfOne(Show);
    ProjectionsConcat([Send(text)], [Show]);
    assert [Send(text)] + [Show] == [Send(text), Show];
    ProjectionsConcat(prologue, [Send(text), Show]);
    LaunchTailLogsNothing(prologue, text);
  }

  lemma LaunchTailLogsNothing(prologue: seq<Event>, text: string)
    ensures Logged(prologue + [Send(text), Show]) == Logged(prologue)
  {
    LoggedOfOne(Send(text));
    LoggedOfOne(Show);
    LoggedConcat([Send(text)], [Show]);
    assert [Send(text)] + [Show] == [Send(text), Show];
    LoggedConcat(prologue, [Send(text), Show]);
  }

  /**
   A resolved tool location leads to exactly one launch text, sent after the
   optional `cd` and followed by `Show`; nothing is warned or logged.
   */
  lemma ExecLaunches(env: Env, filePath: string, flag: string)
    requires Resolve(env).location != ""
    ensures var t := ExecInTerminal(env, filePath, flag);
      && Sent(t) == CdSent(env, filePath) + [LaunchTextFor(env, Resolve(env).location, flag, filePath)]
      && Shows(t) == 1
      && t[|t| - 1] == Show
      && t[|t| - 2] == Send(LaunchTextFor(env, Resolve(env).location, flag, filePath))
      && Warned(t) == []
      && Logged(t) == []
  {
    var prologue := [CreateTerminal(TerminalName)] + CdEvents(env, Quote(filePath));
    var text := LaunchTextFor(env, Resolve(env).location, flag, filePath);
    assert ExecInTerminal(env, filePath, flag) == prologue + [Send(text), Show];
    PrologueProjections(env, filePath);
    LaunchTail(prologue, text);
  }

  /**
   A failed resolution sends no launch text and shows nothing; a `cd` may
   already have been sent, and the resolver's one report, if any, is the only
   warning and the only console line.
   */
  lemma ExecAborts(env: Env, filePath: string, flag: string)
    requires Resolve(env).location == ""
    ensures var t := ExecInTerminal(env, filePath, flag);
      && Sent(t) == CdSent(env, filePath)
      && Shows(t) == 0
      && Warned(t) == Warned(Resolve(env).events)
      && |Warned(t)| <= 1
      && Logged(t) == Logged(Resolve(env).events)
  {
    var t := ExecInTerminal(env, filePath, flag);
    var prologue := [CreateTerminal(TerminalName)] + CdEvents(env, Quote(filePath));
    var events := Resolve(env).events;
    assert t == prologue + events;
    PrologueProjections(env, filePath);
    if events != [] {
      var m :| events == Report(m);
    }
    ProjectionsConcat(prologue, events);
    LoggedConcat(prologue, events);
  }

  /** The `cd`, when sent, is the first thing sent, before resolution reports anything. */
  lemma CdComesFirst(env: Env, filePath: string, flag: string)
    requires CdDirectory(env, Quote(filePath)).Some?
    ensures var t := ExecInTerminal(env, filePath, flag);
      |t| >= 2 && t[1] == Send(CdText(CdDirectory(env, Quote(filePath)).value))
  {
  }

  /**
   The whole command: it is shown exactly when it gets past every early stop
   and the tool is found, and then the last text sent is the launch text for
   the picked mode's flag and the active document.  At most one `cd` and one
   launch text are ever sent.
   */
  lemma ProfileOutcome(env: Env, chosen: Option<string>)
    ensures var t := StartPyVmMonitor(env, chosen);
      && Shows(t) <= 1
      && |Sent(t)| <= 2
      && (Shows(t) == 1 <==> ReachesTerminal(env, chosen) && Resolve(env).location != "")
    ensures ReachesTerminal(env, chosen) && Resolve(env).location != "" ==>
      var t := StartPyVmMonitor(env, chosen);
      var launch := LaunchTextFor(env, Resolve(env).location,
        Flag(ParseLabel(chosen.value).value), env.editor.value.fileName);
      |Sent(t)| >= 1 && Sent(t)[|Sent(t)| - 1] == launch && t[|t| - 1] == Show
  {
    if ReachesTerminal(env, chosen) {
      var file := env.editor.value.fileName;
      var flag := Flag(ParseLabel(chosen.value).value);
      if Resolve(env).location != "" {
        ExecLaunches(env, file, flag);
      } else {
        ExecAborts(env, file, flag);
      }
    } else {
      EarlyStops(env, chosen);
    }
  }

  /**
   On win32 the rewrite touches only the entry point and the file path: the
   sent text is `python `, the rewritten entry, the flag as given, a space and
   the rewritten file, behind `& ` for PowerShell.
   */
  lemma WindowsLaunchText(isPowerShell: bool, entry: string, mode: Mode, file: string)
    ensures LaunchText(Win32, isPowerShell, BuildCommand(entry, Flag(mode), file)) ==
      (if isPowerShell then "& " else "")
      + "python " + ToForwardSlashes(entry) + Flag(mode) + " " + ToForwardSlashes(file)
  {
    var flag := Flag(mode);
    var command := BuildCommand(entry, flag, file);
    var prefix := if isPowerShell then "& " else "";
    ForwardSlashesCommand(entry, flag, file);
    assert LaunchText(Win32, isPowerShell, command) == prefix + ToForwardSlashes(command);
    var a, c := ToForwardSlashes(entry), ToForwardSlashes(file);
    calc {
      prefix + ("python " + a + flag + " " + c);
      { ConcatAssociates(prefix, "python " + a + flag + " ", c); }
      prefix + ("python " + a + flag + " ") + c;
      { ConcatAssociates(prefix, "python " + a + flag, " "); }
      prefix + ("python " + a + flag) + " " + c;
      { ConcatAssociates(prefix, "python " + a, flag); }
      prefix + ("python " + a) + flag + " " + c;
      { ConcatAssociates(prefix, "python ", a); }
      prefix + "python " + a + flag + " " + c;
    }
  }

  /**
   The text sent for a resolved tool, a mode and a document: `python `, the
   entry point beside the tool, the mode's flag, a space and the quoted
   document path; on win32 rewritten to slashes, behind `& ` for PowerShell.
   */
  lemma LaunchTextForMode(env: Env, toolLocation: string, mode: Mode, filePath: string)
    ensures env.platform != Win32 ==>
      LaunchTextFor(env, toolLocation, Flag(mode), filePath) ==
        "python " + EntryPoint(env.paths, toolLocation) + Flag(mode) + " " + Quote(filePath)
    ensures env.platform == Win32 ==>
      LaunchTextFor(env, toolLocation, Flag(mode), filePath) ==
        (if env.isPowerShell then "& " else "")
        + "python " + ToForwardSlashes(EntryPoint(env.paths, toolLocation)) + Flag(mode)
        + " " + ToForwardSlashes(Quote(filePath))
  {
    if env.platform == Win32 {
      WindowsLaunchText(env.isPowerShell, EntryPoint(env.paths, toolLocation), mode, Quote(filePath));
    }
  }

  /** The rewrite of a built command rewrites only its entry point and its file. */
  lemma ForwardSlashesCommand(entry: string, flag: string, file: string)
    requires '\\' !in flag
    ensures ToForwardSlashes(BuildCommand(entry, flag, file)) ==
      "python " + ToForwardSlashes(entry) + flag + " " + ToForwardSlashes(file)
  {
    var a := "python " + entry;
    var b := a + flag;
    var c := b + " ";
    assert BuildCommand(entry, flag, file) == c + file;
    calc {
      ToForwardSlashes(c + file);
      { ForwardSlashesConcat(c, file); }
      ToForwardSlashes(c) + ToForwardSlashes(file);
      { ForwardSlashesConcat(b, " "); ForwardSlashesIdentity(" "); }
      ToForwardSlashes(b) + " " + ToForwardSlashes(file);
      { ForwardSlashesConcat(a, flag); ForwardSlashesIdentity(flag); }
      ToForwardSlashes(a) + flag + " " + ToForwardSlashes(file);
      { ForwardSlashesConcat("python ", entry); ForwardSlashesIdentity("python "); }
      "python " + ToForwardSlashes(entry) + flag + " " + ToForwardSlashes(file);
    }
  }

  /** Rewriting a win32 command twice sends the same text as rewriting it once. */
  lemma WindowsRewriteStable(isPowerShell: bool, command: string)
    ensures ToForwardSlashes(LaunchText(Win32, isPowerShell, command)) == LaunchText(Win32, isPowerShell, command)
  {
    ForwardSlashesIdentity(LaunchText(Win32, isPowerShell, command));
  }
}

=== FILE: launcher.dfy ===
/**
 The profiling command (`startPyVmMonitor` and `execInTerminal`): one
 invocation as the sequence of events it produces.
 */
module Launcher {
  import opened Host
  import opened Text
  import opened Trace
  import opened Modes
  import opened Resolver

  const TerminalName := "Python"
  const NoEditorMessage := "Unable to start profiling: no editor open."
  const UnsavedMessage := "Unable to start profiling: please save editor before profiling."

  /**
   The directory to `cd` into before launching, if any.  `quotedFile` is the
   file path after `Quote`, so its dirname keeps the opening quote; the
   comparison without the first character is what matches the workspace root
   in that case.
   */
  function CdDirectory(env: Env, quotedFile: string): (r: Option<string>)
    ensures r.Some? ==>
      && env.workspaceOf(quotedFile).Some?
      && r.value == env.paths.dirname(quotedFile)
      && r.value != env.workspaceOf(quotedFile).value
      && DropFirst(r.value) != env.workspaceOf(quotedFile).value
  {
    var dir := env.paths.dirname(quotedFile);
    match env.workspaceOf(quotedFile)
    case None => None
    case Some(root) => if dir != root && DropFirst(dir) != root then Some(dir) else None
  }

  function CdText(dir: string): string {
    "cd \"" + dir + "\""
  }

  function CdEvents(env: Env, quotedFile: string): seq<Event> {
    match CdDirectory(env, quotedFile)
    case None => []
    case Some(dir) => [Send(CdText(dir))]
  }

  /**
   `<dirname(tool)>/public_api/pyvmmonitor/__init__.py`, made absolute, then
   quoted by the same rule as the document path.
   */
  function EntryPoint(paths: PathOps, toolLocation: string): (r: string)
    ensures var abs := paths.resolve(paths.join([paths.dirname(toolLocation), "public_api", "pyvmmonitor", "__init__.py"]));
      && (' ' in abs && abs[0] != ' ' ==> r == "\"" + abs + "\"")
      && (!(' ' in abs && abs[0] != ' ') ==> r == abs)
  {
    Quote(paths.resolve(paths.join([paths.dirname(toolLocation), "public_api", "pyvmmonitor", "__init__.py"])))
  }

  /** `python <entry><flag> <file>`: the flag is glued to the entry point. */
  function BuildCommand(entry: string, flag: string, file: string): (c: string)
    ensures |c| == 8 + |entry| + |flag| + |file|
    ensures c[..7] == "python "
    ensures c[7..7 + |entry|] == entry
    ensures c[7 + |entry|..7 + |entry| + |flag|] == flag
    ensures c[|c| - |file| - 1] == ' '
    ensures c[|c| - |file|..] == file
  {
    "python " + entry + flag + " " + file
  }

  /**
   The text actually sent: on win32 every backslash becomes a slash and a
   PowerShell shell gets the call operator `& ` in front; elsewhere the
   command is sent as built.
   */
  function LaunchText(platform: Platform, isPowerShell: bool, command: string): (r: string)
    ensures platform != Win32 ==> r == command
    ensures platform == Win32 ==> |r| == |command| + (if isPowerShell then 2 else 0)
    ensures platform == Win32 ==> '\\' !in r
    ensures platform == Win32 && isPowerShell ==> r[..2] == "& "
    ensures platform == Win32 ==> var offset := if isPowerShell then 2 else 0;
      forall i :: 0 <= i < |command| ==> r[offset + i] == (if command[i] == '\\' then '/' else command[i])
  {
    if platform == Win32 then
      var commandWin := ToForwardSlashes(command);
      if isPowerShell then "& " + commandWin else commandWin
    else
      command
  }

  /** The launch text for a resolved tool location, a mode flag and the (unquoted) file path. */
  function LaunchTextFor(env: Env, toolLocation: string, flag: string, filePath: string): string {
    LaunchText(env.platform, env.isPowerShell,
      BuildCommand(EntryPoint(env.paths, toolLocation), flag, Quote(filePath)))
  }

  /** `execInTerminal(filePath, args)`. */
  function ExecInTerminal(env: Env, filePath: string, flag: string): (t: seq<Event>)
    ensures |t| >= 1 && t[0] == CreateTerminal(TerminalName)
    ensures Resolve(env).location == "" ==> Show !in t
    ensures Resolve(env).location != "" ==>
      |t| >= 3 && t[|t| - 1] == Show
      && t[|t| - 2] == Send(LaunchTextFor(env, Resolve(env).location, flag, filePath))
  {
    var file := Quote(filePath);
    var prologue := [CreateTerminal(TerminalName)] + CdEvents(env, file);
    assert Show !in prologue && prologue[0] == CreateTerminal(TerminalName);
    var resolution := Resolve(env);
    if resolution.location == "" then
      AppendEvents(prologue, resolution.events);
      prologue + resolution.events
    else
      var launch := [Send(LaunchTextFor(env, resolution.location, flag, filePath)), Show];
      AppendEvents(prologue, launch);
      prologue + launch
  }

  /** A quick-pick result that JavaScript treats as falsy: cancelled or empty. */
  predicate Cancelled(chosen: Option<string>) {
    chosen.None? || chosen.value == ""
  }

  /** `startPyVmMonitor(chosen)`, with `chosen` the quick-pick result. */
  function StartPyVmMonitor(env: Env, chosen: Option<string>): (t: seq<Event>)
    ensures Cancelled(chosen) ==> t == []
    ensures (exists x :: Send(x) in t) || Show in t ==>
      && !Cancelled(chosen)
      && env.editor.Some?
      && !env.editor.value.isUntitled
      && ParseLabel(chosen.value).Some?
  {
    if Cancelled(chosen) then []
    else match env.editor
      case None => [Warning(NoEditorMessage)]
      case Some(document) =>
        if document.isUntitled then [Warning(UnsavedMessage)]
        else match ParseLabel(chosen.value)
          case None => []
          case Some(mode) => ExecInTerminal(env, document.fileName, Flag(mode))
  }
}

=== FILE: modes.dfy ===
/** The three entries of the profiling quick-pick menu and the flags they pass. */
module Modes {
  import opened Host

  datatype Mode = Yappi | CProfile | LiveView

  const YappiLabel := "Start profiling with yappi"
  const CProfileLabel := "Start profiling with profile/cProfile"
  const LiveViewLabel := "Start only with live sampling view"

  /** The menu label offered for a mode. */
  function Label(m: Mode): string {
    match m
    case Yappi => YappiLabel
    case CProfile => CProfileLabel
    case LiveView => LiveViewLabel
  }

  /**
   The argument text appended right after the entry-point path.  Every
   non-empty flag brings its own leading space.
   */
  function Flag(m: Mode): (f: string)
    ensures f == "" || (f[0] == ' ' && ' ' !in f[1..])
    ensures '\\' !in f
  {
    match m
    case Yappi => " --profile=yappi"
    case CProfile => " --profile=lsprof"
    case LiveView => ""
  }

  /** The `switch (chosen)` of the launcher: which mode, if any, a picked label selects. */
  function ParseLabel(s: string): (r: Option<Mode>)
    ensures r.Some? ==> Label(r.value) == s
    ensures r.None? ==> forall m: Mode :: Label(m) != s
  {
    if s == YappiLabel then Some(Yappi)
    else if s == CProfileLabel then Some(CProfile)
    else if s == LiveViewLabel then Some(LiveView)
    else None
  }

  /** Every label offered by the menu selects its own mode. */
  lemma ParseLabelInvertsLabel(m: Mode)
    ensures ParseLabel(Label(m)) == Some(m)
  {
    assert YappiLabel[21] != CProfileLabel[21];
    assert YappiLabel[6] != LiveViewLabel[6];
    assert CProfileLabel[6] != LiveViewLabel[6];
  }

  /** The menu table: each label and the flag it launches with. */
  lemma MenuTable()
    ensures ParseLabel("Start profiling with yappi") == Some(Yappi)
    ensures ParseLabel("Start profiling with profile/cProfile") == Some(CProfile)
    ensures ParseLabel("Start only with live sampling view") == Some(LiveView)
    ensures Flag(Yappi) == " --profile=yappi"
    ensures Flag(CProfile) == " --profile=lsprof"
    ensures Flag(LiveView) == ""
  {
    ParseLabelInvertsLabel(Yappi);
    ParseLabelInvertsLabel(CProfile);
    ParseLabelInvertsLabel(LiveView);
  }
}

=== FILE: posix_example.dfy ===
/**
 A worked example on a POSIX machine.  `path.join`, `path.dirname` and
 `path.resolve` are replaced by a simplified stand-in: joining with `/`, cutting
 at the last `/`, and the identity (every path is taken as already absolute).
 */
module PosixExample {
  import opened Host
  import opened Text
  import opened Modes
  import opened Launcher

  /** The last position of `c` in `s`, or -1. */
  function LastIndexOf(s: string, c: char): (r: int)
    ensures -1 <= r < |s|
    ensures r == -1 ==> c !in s
    ensures 0 <= r ==> s[r] == c && c !in s[r + 1..]
  {
    if |s| == 0 then -1
    else if s[|s| - 1] == c then
      assert s[|s|..] == [];
      |s| - 1
    else
      var init := s[..|s| - 1];
      var k := LastIndexOf(init, c);
      assert s == init + [s[|s| - 1]];
      if k < 0 then k
      else
        assert s[k] == init[k];
        assert s[k + 1..] == init[k + 1..] + [s[|s| - 1]];
        k
  }

  /** Everything before the last `/`: `.` without one, `/` when it is the first character. */
  function Dirname(p: string): string {
    var k := LastIndexOf(p, '/');
    if k < 0 then "."
    else if k == 0 then "/"
    else p[..k]
  }

  /** The dirname of a child is its parent. */
  lemma DirnameOfChild(parent: string, name: string)
    requires parent != "" && '/' !in name
    ensures Dirname(parent + "/" + name) == parent
  {
    var p := parent + "/" + name;
    var k := LastIndexOf(p, '/');
    assert p[|parent|] == '/';
    assert p[..|parent|] == parent;
  }

  /** The parts separated by `/`. */
  function JoinAll(parts: seq<string>): string {
    if |parts| == 0 then ""
    else if |parts| == 1 then parts[0]
    else parts[0] + "/" + JoinAll(parts[1..])
  }

  const Posix := PathOps(JoinAll, Dirname, (p: string) => p)

  const Install := "/opt/Brainwy"
  const ToolLocation := Install + "/" + "pyvmmonitor"
  const EntryScript := Install + "/" + "public_api" + "/" + "pyvmmonitor" + "/" + "__init__.py"
  const Home := "/home/u"
  const FileName := "my file.py"
  const DocumentPath := Home + "/" + FileName

  /** Four parts joined: each separated from the next by one `/`. */
  lemma JoinFour(a: string, b: string, c: string, d: string)
    ensures JoinAll([a, b, c, d]) == a + "/" + b + "/" + c + "/" + d
  {
    var parts := [a, b, c, d];
    assert parts[1..][1..][1..] == [d];
    assert JoinAll(parts[1..][1..]) == c + "/" + d;
    assert JoinAll(parts[1..]) == b + "/" + (c + "/" + d);
  }

  lemma ExampleJoin()
    ensures JoinAll([Install, "public_api", "pyvmmonitor", "__init__.py"]) == EntryScript
  {
    JoinFour(Install, "public_api", "pyvmmonitor", "__init__.py");
  }

  lemma ExampleDirname()
    ensures Posix.dirname(ToolLocation) == Install
  {
    DirnameOfChild(Install, "pyvmmonitor");
  }

  lemma EntryScriptUnquoted()
    ensures Quote(EntryScript) == EntryScript
  {
    assert ' ' !in Install && ' ' !in "public_api" && ' ' !in "pyvmmonitor" && ' ' !in "__init__.py";
    assert ' ' !in EntryScript;
  }

  /** The entry point sits beside the configured executable, and needs no quotes. */
  lemma ExampleEntryPoint()
    ensures EntryPoint(Posix, ToolLocation) == EntryScript
  {
    ExampleDirname();
    ExampleJoin();
    EntryScriptUnquoted();
  }

  /** A document path with a space is quoted, and the flag follows the entry point directly. */
  lemma ExampleCommand(env: Env)
    requires env.platform != Win32 && env.paths == Posix
    ensures LaunchTextFor(env, ToolLocation, Flag(Yappi), DocumentPath)
      == "python " + EntryScript + " --profile=yappi" + " " + ("\"" + DocumentPath + "\"")
  {
    ExampleEntryPoint();
    QuotedDocument();
  }

  lemma QuotedDocument()
    ensures Quote(DocumentPath) == "\"" + DocumentPath + "\""
  {
    assert DocumentPath[10] == ' ';
  }

  /**
   The dirname of a quoted document path keeps the opening quote, so the
   comparison without the first character is the one that can match the
   workspace root, and the `cd` text carries two quotes in front.
   */
  lemma ExampleQuotedDirname()
    ensures Dirname(Quote(DocumentPath)) == "\"" + Home
    ensures DropFirst(Dirname(Quote(DocumentPath))) == Home
    ensures CdText(Dirname(Quote(DocumentPath))) == "cd \"\"" + Home + "\""
  {
    QuotedDocumentDirname();
    assert DropFirst("\"" + Home) == Home;
  }

  lemma QuotedDocumentDirname()
    ensures Dirname(Quote(DocumentPath)) == "\"" + Home
  {
    QuotedDocument();
    DirnameOfQuotedChild(Home, FileName);
  }

  /** The dirname of a quoted child is its parent behind the opening quote. */
  lemma DirnameOfQuotedChild(parent: string, name: string)
    requires '/' !in name
    ensures Dirname("\"" + (parent + "/" + name) + "\"") == "\"" + parent
  {
    calc {
      "\"" + (parent + "/" + name) + "\"";
      { ConcatAssociates("\"", parent + "/", name); }
      "\"" + (parent + "/") + name + "\"";
      { ConcatAssociates("\"", parent, "/"); }
      "\"" + parent + "/" + name + "\"";
      { ConcatAssociates("\"" + parent + "/", name, "\""); }
      "\"" + parent + "/" + (name + "\"");
    }
    assert '/' !in name + "\"";
    DirnameOfChild("\"" + parent, name + "\"");
  }
}

=== FILE: resolver.dfy ===
/**
 Finding the PyVmMonitor user interface executable from PyVmMonitor's INI
 file (`getPyVmMonitorLocation`).
 */
module Resolver {
  import opened Host
  import opened Trace

  const IniSection := "General"
  const ExecutableKey := "pyvmmonitor_ui_executable"

  /** What stands in for the INI path on win32 when LOCALAPPDATA is unset or empty. */
  const NoLocalAppData := "Unable to get LOCALAPPDATA variable."

  const NotInstalledPrefix := "It seems PyVmMonitor is not installed" + " or was never run." + " Expected to find ini at: "

  /** The platform-specific INI path; on win32 without LOCALAPPDATA, the message above. */
  function IniLocation(env: Env): (ini: string)
    ensures env.platform == Win32 && (env.localAppData.None? || env.localAppData.value == "") ==>
      ini == NoLocalAppData
  {
    match env.platform
    case Win32 =>
      if env.localAppData.Some? && env.localAppData.value != "" then
        env.paths.join([env.localAppData.value, "Brainwy", "PyVmMonitor.ini"])
      else
        NoLocalAppData
    case Darwin =>
      env.paths.join([env.homedir, "Library", "Application Support", "Brainwy", "PyVmMonitor.ini"])
    case OtherPlatform =>
      env.paths.join([env.homedir, ".config", "Brainwy", "pyvmmonitor.ini"])
  }

  /** The INI path on each platform. */
  lemma IniLocationByPlatform(env: Env)
    ensures env.platform == Win32 && env.localAppData.Some? && env.localAppData.value != "" ==>
      IniLocation(env) == env.paths.join([env.localAppData.value, "Brainwy", "PyVmMonitor.ini"])
    ensures env.platform == Win32 && (env.localAppData.None? || env.localAppData.value == "") ==>
      IniLocation(env) == "Unable to get LOCALAPPDATA variable."
    ensures env.platform == Darwin ==>
      IniLocation(env) == env.paths.join([env.homedir, "Library", "Application Support", "Brainwy", "PyVmMonitor.ini"])
    ensures env.platform == OtherPlatform ==>
      IniLocation(env) == env.paths.join([env.homedir, ".config", "Brainwy", "pyvmmonitor.ini"])
  {
  }

  function NotInstalledMessage(ini: string): string {
    NotInstalledPrefix + ini
  }

  /** JavaScript's string conversion of the configured value: `undefined` when the key is absent. */
  function LocationText(location: Option<string>): string {
    match location
    case Some(l) => l
    case None => "undefined"
  }

  function InvalidMessage(location: string, ini: string): string {
    "PyVmMonitor location (" + location + ") found in ini: " + ini + " is not valid."
  }

  /** A failure report goes both to the console and to a warning notification. */
  function Report(message: string): (t: seq<Event>)
    ensures Logged(t) == [message] && Warned(t) == [message]
    ensures Sent(t) == [] && Shows(t) == 0
    ensures |t| == 2 && t[0] == Log(message)
  {
    ProjectionsOfOne(Log(message));
    ProjectionsOfOne(Warning(message));
    LoggedOfOne(Log(message));
    LoggedOfOne(Warning(message));
    ProjectionsConcat([Log(message)], [Warning(message)]);
    LoggedConcat([Log(message)], [Warning(message)]);
    assert [Log(message)] + [Warning(message)] == [Log(message), Warning(message)];
    [Log(message), Warning(message)]
  }

  /** The key's value in the `General` section, when the INI exists and holds both. */
  function ConfiguredExecutable(env: Env): (r: Option<string>)
    ensures r.Some? <==>
      && env.pathExists(IniLocation(env))
      && env.readIni(IniLocation(env)).Some?
      && IniSection in env.readIni(IniLocation(env)).value
      && ExecutableKey in env.readIni(IniLocation(env)).value[IniSection]
    ensures r.Some? ==> r.value == env.readIni(IniLocation(env)).value[IniSection][ExecutableKey]
  {
    var ini := IniLocation(env);
    if !env.pathExists(ini) then None
    else match env.readIni(ini)
      case None => None
      case Some(config) =>
        if IniSection in config && ExecutableKey in config[IniSection] then
          Some(config[IniSection][ExecutableKey])
        else None
  }

  /** What resolution returns (`''` on failure) together with what it reported. */
  datatype Resolution = Resolution(location: string, events: seq<Event>)

  /**
   `getPyVmMonitorLocation`.  Failure returns the empty location; a missing
   INI and an unusable configured path are reported, a parse without a
   `General` section is not.
   */
  function Resolve(env: Env): (res: Resolution)
    ensures res.events == [] || exists m :: res.events == Report(m)
    ensures res.events != [] ==> res.location == ""
    ensures Show !in res.events
    ensures res.location != "" ==>
      ConfiguredExecutable(env) == Some(res.location) && env.pathExists(res.location)
  {
    var ini := IniLocation(env);
    if env.pathExists(ini) then
      match env.readIni(ini)
      case None => Resolution("", [])
      case Some(config) =>
        if IniSection !in config then Resolution("", [])
        else
          var location := if ExecutableKey in config[IniSection]
            then Some(config[IniSection][ExecutableKey]) else None;
          if location.Some? && env.pathExists(location.value) then
            Resolution(location.value, [])
          else
            Resolution("", Report(InvalidMessage(LocationText(location), ini)))
    else
      Resolution("", Report(NotInstalledMessage(ini)))
  }

  /** Resolution yields a location exactly when the configured path is non-empty and exists. */
  lemma ResolveFound(env: Env)
    ensures Resolve(env).location != "" <==>
      ConfiguredExecutable(env).Some? && ConfiguredExecutable(env).value != ""
      && env.pathExists(ConfiguredExecutable(env).value)
    ensures Resolve(env).location != "" ==> Resolve(env).location == ConfiguredExecutable(env).value
  {
  }

  lemma MessagesDiffer(location: string, ini: string, ini': string)
    ensures InvalidMessage(location, ini) != NotInstalledMessage(ini')
  {
    assert InvalidMessage(location, ini)[0] == 'P';
    assert NotInstalledPrefix[0] == 'I';
    assert NotInstalledMessage(ini')[0] == NotInstalledPrefix[0];
  }

  /** Exactly the "not installed" report, naming the INI path, iff the INI does not exist. */
  lemma ResolveNotInstalled(env: Env)
    ensures Resolve(env).events == Report(NotInstalledMessage(IniLocation(env)))
      <==> !env.pathExists(IniLocation(env))
  {
    var ini := IniLocation(env);
    if env.pathExists(ini) && Resolve(env).events != [] {
      var location :| Resolve(env).events == Report(InvalidMessage(location, ini));
      MessagesDiffer(location, ini, ini);
    }
  }

  /**
   Exactly the "not valid" report, naming the configured value and the INI
   path, iff the INI exists, parses with a `General` section, and the key is
   missing or names a path that does not exist.
   */
  lemma ResolveInvalid(env: Env)
    ensures (exists location :: Resolve(env).events == Report(InvalidMessage(location, IniLocation(env))))
      <==> (var ini := IniLocation(env);
            && env.pathExists(ini)
            && env.readIni(ini).Some?
            && IniSection in env.readIni(ini).value
            && !(ConfiguredExecutable(env).Some? && env.pathExists(ConfiguredExecutable(env).value)))
    ensures (var ini := IniLocation(env);
             && env.pathExists(ini)
             && env.readIni(ini).Some?
             && IniSection in env.readIni(ini).value
             && !(ConfiguredExecutable(env).Some? && env.pathExists(ConfiguredExecutable(env).value)))
      ==> Resolve(env).events == Report(InvalidMessage(LocationText(ConfiguredExecutable(env)), IniLocation(env)))
  {
    var ini := IniLocation(env);
    if !env.pathExists(ini) {
      assert Resolve(env).events == Report(NotInstalledMessage(ini));
      if exists location :: Resolve(env).events == Report(InvalidMessage(location, ini)) {
        var location :| Resolve(env).events == Report(InvalidMessage(location, ini));
        assert Report(InvalidMessage(location, ini))[0] == Report(NotInstalledMessage(ini))[0];
        MessagesDiffer(location, ini, ini);
      }
    } else if !(env.readIni(ini).Some? && IniSection in env.readIni(ini).value) {
      assert Resolve(env).events == [];
    } else {
      var section := env.readIni(ini).value[IniSection];
      var location := if ExecutableKey in section then Some(section[ExecutableKey]) else None;
      assert Resolve(env).events == (if location.Some? && env.pathExists(location.value)
        then [] else Report(InvalidMessage(LocationText(location), ini)));
    }
  }

  /** A parse that is falsy or lacks `General` gives up quietly. */
  lemma ResolveQuiet(env: Env)
    requires env.pathExists(IniLocation(env))
    requires env.readIni(IniLocation(env)).None? || IniSection !in env.readIni(IniLocation(env)).value
    ensures Resolve(env) == Resolution("", [])
  {
  }

  /**
   On win32 with LOCALAPPDATA unset or empty, the message itself is probed as
   the INI path, and when nothing exists there the "not installed" warning
   names that message.
   */
  lemma WindowsWithoutLocalAppData(env: Env)
    requires env.platform == Win32
    requires env.localAppData.None? || env.localAppData.value == ""
    ensures IniLocation(env) == NoLocalAppData
    ensures !env.pathExists(NoLocalAppData) ==>
      Resolve(env).events == Report(NotInstalledPrefix + NoLocalAppData)
  {
  }

  /** At most one warning per resolution, and none when a location is found. */
  lemma ResolveWarnsAtMostOnce(env: Env)
    ensures |Warned(Resolve(env).events)| <= 1
    ensures Resolve(env).location != "" ==> Resolve(env).events == []
  {
  }
}

=== FILE: text.dfy ===
/** The JavaScript string operations the launcher uses on paths and commands. */
module Text {

  /** `s.indexOf(c)` for a one-character needle: the first position of `c`, or -1. */
  function IndexOf(s: string, c: char): (r: int)
    ensures -1 <= r < |s|
    ensures r == -1 <==> c !in s
    ensures 0 <= r ==> s[r] == c && c !in s[..r]
  {
    if |s| == 0 then -1
    else if s[0] == c then 0
    else
      var k := IndexOf(s[1..], c);
      if k == -1 then -1
      else
        assert s[..k + 1] == [s[0]] + s[1..][..k];
        k + 1
  }

  /**
   The quoting test `p.indexOf(' ') > 0`.  Since `indexOf` finds the FIRST
   space, a path that starts with a space is never quoted, whatever follows.
   */
  function NeedsQuotes(p: string): (b: bool)
    ensures b <==> ' ' in p && p[0] != ' '
  {
    var k := IndexOf(p, ' ');
    assert k > 0 ==> p[0] in p[..k];
    k > 0
  }

  /** Wraps a path in double quotes when `NeedsQuotes` holds; otherwise leaves it alone. */
  function Quote(p: string): (r: string)
    ensures ' ' in p && p[0] != ' ' ==> |r| == |p| + 2 && r[0] == '"' && r[|r| - 1] == '"' && r[1..|r| - 1] == p
    ensures !(' ' in p && p[0] != ' ') ==> r == p
  {
    if NeedsQuotes(p) then "\"" + p + "\"" else p
  }

  /** `s.replace(/\\/g, '/')`: every backslash becomes a forward slash. */
  function ToForwardSlashes(s: string): (r: string)
    ensures |r| == |s|
    ensures forall i :: 0 <= i < |s| ==> r[i] == (if s[i] == '\\' then '/' else s[i])
    ensures '\\' !in r
  {
    if |s| == 0 then ""
    else [if s[0] == '\\' then '/' else s[0]] + ToForwardSlashes(s[1..])
  }

  /** `s.substring(1)`: everything after the first character; empty for the empty string. */
  function DropFirst(s: string): (r: string)
    ensures |s| > 0 ==> [s[0]] + r == s
    ensures |s| == 0 ==> r == ""
  {
    if |s| == 0 then "" else s[1..]
  }

  /** Concatenation regroups freely. */
  lemma ConcatAssociates(a: string, b: string, c: string)
    ensures a + (b + c) == (a + b) + c
  {
  }

  lemma ForwardSlashesIdempotent(s: string)
    ensures ToForwardSlashes(ToForwardSlashes(s)) == ToForwardSlashes(s)
  {
    ForwardSlashesIdentity(ToForwardSlashes(s));
  }

  lemma ForwardSlashesIdentity(s: string)
    requires '\\' !in s
    ensures ToForwardSlashes(s) == s
  {
    var r := ToForwardSlashes(s);
    assert forall i | 0 <= i < |s| :: r[i] == s[i];
  }

  lemma ForwardSlashesConcat(a: string, b: string)
    ensures ToForwardSlashes(a + b) == ToForwardSlashes(a) + ToForwardSlashes(b)
  {
    var l, ra, rb := ToForwardSlashes(a + b), ToForwardSlashes(a), ToForwardSlashes(b);
    assert forall i | 0 <= i < |a| :: l[i] == ra[i] by {
      forall i | 0 <= i < |a| ensures l[i] == ra[i] {
        assert (a + b)[i] == a[i];
      }
    }
    assert forall i | 0 <= i < |b| :: l[|a| + i] == rb[i] by {
      forall i | 0 <= i < |b| ensures l[|a| + i] == rb[i] {
        assert (a + b)[|a| + i] == b[i];
      }
    }
    assert l == ra + rb;
  }
}

=== FILE: trace.dfy ===
/** Projections of an event trace onto what each host surface receives. */
module Trace {
  import opened Host

  /** The texts sent to terminals, in order. */
  function Sent(t: seq<Event>): (r: seq<string>)
    ensures |r| <= |t|
    ensures forall x :: x in r <==> Send(x) in t
  {
    if |t| == 0 then []
    else (if t[0].Send? then [t[0].text] else []) + Sent(t[1..])
  }

  /** The messages of the warning notifications, in order. */
  function Warned(t: seq<Event>): (r: seq<string>)
    ensures |r| <= |t|
    ensures forall x :: x in r <==> Warning(x) in t
  {
    if |t| == 0 then []
    else (if t[0].Warning? then [t[0].message] else []) + Warned(t[1..])
  }

  /** The lines written to the console, in order. */
  function Logged(t: seq<Event>): (r: seq<string>)
    ensures |r| <= |t|
    ensures forall x :: x in r <==> Log(x) in t
  {
    if |t| == 0 then []
    else (if t[0].Log? then [t[0].message] else []) + Logged(t[1..])
  }

  /** How many times a terminal was made visible. */
  function Shows(t: seq<Event>): (n: nat)
    ensures n <= |t|
    ensures n == 0 <==> Show !in t
  {
    if |t| == 0 then 0
    else (if t[0] == Show then 1 else 0) + Shows(t[1..])
  }

  /** Appending to a trace keeps its first event and adds exactly the appended events. */
  lemma AppendEvents(a: seq<Event>, b: seq<Event>)
    requires |a| >= 1
    ensures (a + b)[0] == a[0]
    ensures forall e :: e in a + b <==> e in a || e in b
    ensures |b| >= 2 ==> (a + b)[|a + b| - 1] == b[|b| - 1] && (a + b)[|a + b| - 2] == b[|b| - 2]
  {
  }

  lemma ProjectionsOfOne(e: Event)
    ensures Sent([e]) == (if e.Send? then [e.text] else [])
    ensures Warned([e]) == (if e.Warning? then [e.message] else [])
    ensures Shows([e]) == (if e == Show then 1 else 0)
  {
    assert [e][1..] == [];
  }

  lemma LoggedOfOne(e: Event)
    ensures Logged([e]) == (if e.Log? then [e.message] else [])
  {
    assert [e][1..] == [];
  }

  lemma {:induction false} SentConcat(a: seq<Event>, b: seq<Event>)
    ensures Sent(a + b) == Sent(a) + Sent(b)
    decreases |a|
  {
    if |a| == 0 {
      assert a + b == b;
    } else {
      var head := if a[0].Send? then [a[0].text] else [];
      assert (a + b)[0] == a[0];
      assert (a + b)[1..] == a[1..] + b;
      SentConcat(a[1..], b);
      calc {
        Sent(a + b);
        head + Sent(a[1..] + b);
        head + (Sent(a[1..]) + Sent(b));
        (head + Sent(a[1..])) + Sent(b);
      }
    }
  }

  lemma {:induction false} WarnedConcat(a: seq<Event>, b: seq<Event>)
    ensures Warned(a + b) == Warned(a) + Warned(b)
    decreases |a|
  {
    if |a| == 0 {
      assert a + b == b;
    } else {
      var head := if a[0].Warning? then [a[0].message] else [];
      assert (a + b)[0] == a[0];
      assert (a + b)[1..] == a[1..] + b;
      WarnedConcat(a[1..], b);
      calc {
        Warned(a + b);
        head + Warned(a[1..] + b);
        head + (Warned(a[1..]) + Warned(b));
        (head + Warned(a[1..])) + Warned(b);
      }
    }
  }

  lemma {:induction false} LoggedConcat(a: seq<Event>, b: seq<Event>)
    ensures Logged(a + b) == Logged(a) + Logged(b)
    decreases |a|
  {
    if |a| == 0 {
      assert a + b == b;
    } else {
      var head := if a[0].Log? then [a[0].message] else [];
      assert (a + b)[0] == a[0];
      assert (a + b)[1..] == a[1..] + b;
      LoggedConcat(a[1..], b);
      calc {
        Logged(a + b);
        head + Logged(a[1..] + b);
        head + (Logged(a[1..]) + Logged(b));
        (head + Logged(a[1..])) + Logged(b);
      }
    }
  }

  lemma {:induction false} ShowsConcat(a: seq<Event>, b: seq<Event>)
    ensures Shows(a + b) == Shows(a) + Shows(b)
    decreases |a|
  {
    if |a| == 0 {
      assert a + b == b;
    } else {
      assert (a + b)[0] == a[0];
      assert (a + b)[1..] == a[1..] + b;
      ShowsConcat(a[1..], b);
    }
  }

  /** Each projection of a concatenation is the concatenation of the projections. */
  lemma ProjectionsConcat(a: seq<Event>, b: seq<Event>)
    ensures Sent(a + b) == Sent(a) + Sent(b)
    ensures Warned(a + b) == Warned(a) + Warned(b)
    ensures Shows(a + b) == Shows(a) + Shows(b)
  {
    SentConcat(a, b);
    WarnedConcat(a, b);
    ShowsConcat(a, b);
  }
}
